=== FILE: README.md ===
# Auto-Editor Web: a Dafny model of the command-building core

Auto-Editor Web is a Streamlit page that collects editing options, saves an
uploaded video to a temporary directory, runs the external `auto-editor`
tool on it, and shows the tool's progress. Almost all of `app.py` is widget
layout, process handling and file-system calls. This project models the
small pure transformations inside it:

- the upload's stem and its sanitised form, and the names of the MP4 and project targets;
- the two mappings from the export choice to an export type, a project extension and the path checked after the run;
- the argument vector given to `auto-editor`, including the `--export` option and its white-space split;
- the guard that refuses a project export without an original path;
- the percentage read from each line of the tool's output;
- the `file:///` escaping of the user's path;
- the session list of temporary directories: upload, end-of-run cleanup, and the clear button.

Modules, one per concern:

| file | module | models |
|---|---|---|
| `wrappers.dfy` | `Wrappers` | `Option`, `Result` |
| `char_classes.dfy` | `CharClasses` | Python's Unicode tables for `\w`, `\d`/`int()`, `str.isspace` |
| `posix_path.dfy` | `PosixPath` | `os.path.join`, `dirname` and `splitext` on a POSIX host, plus `basename`, which the application does not call and which serves only to state what a join produces |
| `naming.dfy` | `Naming` | output folder, stem, sanitised stem, MP4 and project targets |
| `export_format.dfy` | `ExportFormat` | export choices, export type and extension, checked path, `--export` option |
| `whitespace_split.dfy` | `WhitespaceSplit` | `str.split()` with no separator |
| `command.dfy` | `Command` | threshold text, edit option, argument vector, missing-path guard |
| `progress.dfy` | `Progress` | `(\d+)%` search, `int()`, per-line update, the read loop |
| `url_escape.dfy` | `UrlEscape` | `path.replace("\\", "/").replace(":", "%3A")` |
| `temp_dirs.dfy` | `TempDirs` | `temp_directories`: upload, end-of-run cleanup, clear button |
| `result_folder.dfy` | `ResultFolder` | the result folder shown after a run, as written and corrected |

Modelling decisions:

- Python's `\w`, `\d`, `int()` on digit strings and `str.isspace` are Unicode-aware. They are not fixed to ASCII. `CharClasses.Tables` is any triple of character functions with the few properties of Python's tables the proofs use: `_` is a word character, `/` is not, ASCII letters and digits are word characters, the ASCII digits are exactly `0`-`9` with their usual values, a space is white space, and no visible ASCII character is.
- `os.path` is `posixpath`. The Windows variant (`ntpath`, with drives and `\`) is not modelled.
- Threshold, margin and speeds are numbers that Python formats (`f"{threshold}%"`, `f"{margin}sec"`, `str(...)`). They are carried as the formatted strings.
- The file-system answers the code depends on are inputs (`Command.Host`): whether the original path is a directory, whether the media file is already in the project folder, and whether copying it there succeeds. Whether removing a temporary directory fails is also an input, the function `fails`.
- The export choice is kept as the label string of the select box. Both mapping chains compare against those labels, and their final `else` branches apply to any other string.

## Model

| member | source | states |
|---|---|---|
| `PosixPath.Splitext` | app.py:235 | `root + ext` is the whole name. A non-empty extension starts with `.` and contains no `/` and no other `.` |
| `PosixPath.SplitextSplitsAtNamedDot` | app.py:258 | an extension is split off exactly when the base name has a `.` preceded by some character other than `.` |
| `PosixPath.Join` | app.py:237 | the joined name is a suffix of the result. An absolute name replaces the folder. Otherwise the folder is a prefix and at most one character is added, which is `/`. That `/` is added exactly when the folder is non-empty and does not already end in `/` |
| `PosixPath.Basename` | app.py:237 | not called by the application. It is the inverse used to state what the join at this line produces: a suffix of the path without `/`, with a `/` right before it when it is shorter than the path |
| `PosixPath.JoinOfName` | app.py:196 | joining a name without `/` can be undone: the base name is the name. The directory is the folder whenever the folder is in the form `dirname` writes |
| `PosixPath.Dirname` | app.py:266 | the directory is a prefix of the path. Only `/` characters separate it from the base name, and it ends in `/` only if it is all slashes. It is empty exactly when the path has no `/` |
| `PosixPath.BasenameOfJoin` | app.py:237 | joining a name without `/` makes that name the base name of the result |
| `PosixPath.DirnameOfJoin` | app.py:270 | joining a name without `/` onto a folder gives that folder back as the directory. The folder must be in the form `dirname` writes: no trailing `/` unless it is all slashes, such as `/` |
| `Naming.OutputDir` | app.py:86 | the output folder's base name is `output`, and it never ends in `/` |
| `Naming.OutputDirInWorkingDir` | app.py:86 | the output folder sits directly in the working directory, including when that directory is the root `/` |
| `Naming.Stem` | app.py:258 | the stem is a prefix of the upload name |
| `Naming.Sanitize` | app.py:235 | the result has the same length. Kept characters (`\w`, `.`, `-`) stay in place, every other one becomes `_`, and every output character is a kept one |
| `Naming.SanitizedHasNoSeparator` | app.py:235 | a sanitised stem contains no `/` |
| `Naming.SanitizeIdempotent` | app.py:235 | sanitising twice gives the same result as sanitising once |
| `Naming.OrdinaryStemIsUnchanged` | app.py:235 | a stem made only of ASCII letters, digits, `_`, `.` and `-` comes out of sanitising unchanged, whatever Unicode tables Python uses |
| `Naming.SanitizeFixesExactlyKeptStems` | app.py:235 | a stem is unchanged exactly when all its characters are kept ones |
| `Naming.Mp4OutputPath` | app.py:235-237 | the MP4 target starts with the output folder and is longer than it. It ends in `_edited` |
| `Naming.Mp4OutputPathShape` | app.py:235-237 | the MP4 target's base name is `<sanitised stem>_edited`, with no extension appended, and its directory is the output folder |
| `Naming.ProjectFolder` | app.py:261-266 | the project folder is the given path when that path is a directory, otherwise `dirname` of the path: a prefix that stops before the base name, in the form `dirname` writes, and empty exactly when the path has no `/` |
| `Naming.ProjectOutputPath` | app.py:258-270 | the project target ends in `_project` |
| `Naming.ProjectOutputPathShape` | app.py:258-270 | the project target ends in `_project`. For an upload name without `/`, its base name is `<original stem>_project` and it lies directly in the project folder |
| `ExportFormat.ExportTarget` | app.py:241-255 | Premiere gets type `premiere`, Resolve gets `resolve`, Final Cut Pro gets `final-cut-pro` and ShotCut gets `shotcut`. Premiere and Resolve get `.xml`, Final Cut Pro gets `.fcpxml` and ShotCut gets `.mlt`. Every other choice, the separate-clips label included, gets `clip-sequence` with no extension, in both directions |
| `ExportFormat.CheckedOutputPath` | app.py:365-372 | the checked path extends the target, and equals it exactly when the choice names no editor |
| `ExportFormat.MappingsAgree` | app.py:365-372 | for every non-MP4 choice, the checked path is the target plus the extension from the first mapping |
| `ExportFormat.ExportDescriptor` | app.py:273-276 | the descriptor starts with the export type and is longer exactly when the timeline name is non-empty and not the default |
| `ExportFormat.ExportOption` | app.py:273-276 | the option is `--export`, one space, then the descriptor |
| `ExportFormat.ExportTypeIsOneWord` | app.py:241-255 | every export type is non-empty and contains no white space |
| `ExportFormat.DefaultOptionTokens` | app.py:273-316 | without a custom timeline name, the option splits into exactly `["--export", type]` |
| `ExportFormat.NamedOptionTokens` | app.py:273-316 | with a custom name, the option splits into `--export` followed by the pieces of `<type>:name="<name>"` |
| `ExportFormat.SpacedNameIsCutApart` | app.py:273-316 | a custom name containing white space yields at least three argument entries |
| `WhitespaceSplit.Split` | app.py:316 | `str.split()` with no separator. Its contract is stated by the lemmas below: `SplitPieces` for the content of the pieces, `SplitAtSpace` with `SplitWord` for how it distributes over white space |
| `WhitespaceSplit.SplitPieces` | app.py:316 | the pieces are non-empty and contain no white space, and joined together they are the input with its white space removed |
| `WhitespaceSplit.SplitAtSpace` | app.py:316 | a white-space character between two parts separates their pieces |
| `WhitespaceSplit.SplitTwoPieces` | app.py:316 | white space with other characters on both sides of it gives at least two pieces |
| `Command.ThresholdText` | app.py:108-125 | the threshold is the number followed by `%` for the percent type and by `dB` for the decibel type, in both directions |
| `Command.EditOption` | app.py:226-229 | the edit option is `audio:threshold=<t>` for the audio method and `motion:threshold=<t>` for the motion method |
| `Command.ParseEditOption` | app.py:226-229 | whatever the reader recognises in an option is exactly what `EditOption` would have written for that mode and threshold |
| `Command.EditOptionRoundTrip` | app.py:226-229 | the edit option loses nothing: reading it back gives the same detection mode and threshold text |
| `Command.TempPath` | app.py:195-196 | the upload's temporary path has the upload name as its base name, and the temporary directory as its directory |
| `Command.ProjectInput` | app.py:282-301 | the tool reads the copy in the project folder when it exists or can be copied there, and the temporary upload otherwise |
| `Command.BaseArgv` | app.py:304-312 | the fixed part is exactly, in order: `auto-editor`, the input, `--edit` with the edit option, `--margin` with the margin plus `sec`, `--silent-speed` with the silent speed, `--video-speed` with the video speed, and `--output` with the output base. That is twelve entries. The edit option reads back as the chosen mode and threshold |
| `Command.ProjectBuildTarget` | app.py:258-270 | a project command records the project folder and writes to `<folder>/<stem>_project` |
| `Command.Mp4Invocation` | app.py:232-312 | an MP4 command is exactly the twelve base entries, run on the temporary upload, writing to the MP4 target. It records no project folder |
| `Command.ProjectInvocation` | app.py:239-316 | a project command is the base entries followed by the split `--export` option. It has at least 14 entries, writes to the project target and records the project folder |
| `Command.Build` | app.py:220-316 | no command is built exactly when a project export has an empty original path. The output entry is the target, and the command has exactly 12 entries exactly when the export is MP4 |
| `Command.ProjectCommandWithDefaultName` | app.py:273-316 | with the default timeline name, a project command has 14 entries and ends in `--export <type>` |
| `Command.ProjectCommandWithSpacedName` | app.py:273-316 | a timeline name containing white space makes the command at least 15 entries long |
| `Progress.Search` | app.py:347 | the result is the leftmost match of `(\d+)%`. No match starts before it, and "no result" means no match anywhere |
| `Progress.DecimalValue` | app.py:349 | `int()` of n digits is a natural number below 10^n |
| `Progress.DecimalValueAppend` | app.py:349 | positional notation: the value of the digits `a + b` is the value of `a` times 10^len(b) plus the value of `b` |
| `Progress.LeadingDigitValue` | app.py:349 | the leading digit is worth its value times 10 to the number of digits after it |
| `Progress.Reading` | app.py:345-353 | a line gives a reading only if it contains both `%` and `Progress:` |
| `Progress.Update` | app.py:345-353 | a line without both `Progress:` and `%` leaves the percentage unchanged, and a changed percentage is never negative |
| `Progress.ReadingIsLeftmostMatch` | app.py:345-353 | on a line with the marker, the reading is the value of the leftmost `(\d+)%` digit run. A run longer than 4300 digits gives no reading, because `int()` raises and the exception is swallowed |
| `Progress.NoReadingWithoutMatch` | app.py:345-348 | a line without the marker or without a match leaves the percentage unchanged |
| `Progress.OverHundredIsKept` | app.py:349-353 | `Progress: 150%` sets the percentage to 150, whatever it was before. Nothing clamps the value |
| `Progress.TrackProgress` | app.py:339-353 | after the loop, the percentage is the reading of the last line that gave one, or 0 when no line did |
| `UrlEscape.ReplaceChar` | app.py:386 | the replaced character no longer occurs, unless the replacement contains it, and no new characters appear |
| `UrlEscape.UrlPath` | app.py:386 | the escaped path contains no `\` and no `:` |
| `UrlEscape.UrlPathIsPerCharacter` | app.py:386 | the two chained replacements act character by character: `\` becomes `/`, `:` becomes `%3A`, and every other character is unchanged |
| `UrlEscape.UrlPathProperties` | app.py:386 | the escaped path contains no `\` and no `:`. It is longer by two characters per colon, and escaping it again changes nothing |
| `TempDirs.TrackUpload` | app.py:195-199 | an upload appends exactly one directory and leaves the earlier entries unchanged |
| `TempDirs.TrackRuns` | app.py:195-199 | repeated runs keep the old list as a prefix and add one entry per run |
| `TempDirs.TrackRunsAppends` | app.py:195-199 | over any number of script runs with a file uploaded, the list becomes the old list followed by every new directory, in order, and grows by one per run |
| `TempDirs.RemoveTree` | app.py:422 | `rmtree` raises only when it fails and errors are not ignored |
| `TempDirs.CleanupAfterRun` | app.py:419-427 | every tracked directory is handed to `rmtree` in order, no error is ever logged, and the list ends empty |
| `TempDirs.ClearButton` | app.py:483-498 | the reported count is the list's length before the click, even when removals fail, and the list ends empty. Nothing-to-clear is shown exactly when the list was empty. The count equals the number of directories really deleted exactly when no removal failed |
| `TempDirs.DeletedAllIff` | app.py:484-493 | every tracked directory is really deleted exactly when none of the removals fails |
| `ResultFolder.DisplayedFolderAsWritten` | app.py:437-440 | an unassigned `project_folder` raises `NameError`. An empty one shows the output folder, and a non-empty one is shown as it is |
| `ResultFolder.Mp4RunFailsAsWritten` | app.py:437-440 | as written, every MP4 run ends in `NameError` |
| `ResultFolder.BareOriginalPathShowsOutputDir` | app.py:261-270 | as written, the original path `clip.mp4` writes the project to the working directory but shows the output folder, which is a different directory |
| `ResultFolder.DisplayedFolder` | app.py:436-442 | the corrected folder is the directory part of the output path, or the working directory when the output path is a bare name |
| `ResultFolder.DisplayedFolderForMp4` | app.py:436-442 | corrected: an MP4 run shows the output folder |
| `ResultFolder.DisplayedFolderForProject` | app.py:436-442 | corrected: a project run shows the project folder when it is named, and the working directory when it is empty |

## Findings

| source | as written | input that shows it | evidently intended | confidence | as-written member | corrected member |
|---|---|---|---|---|---|---|
| app.py:437-440 | `if project_folder:` reads a name that is only assigned on the project-export path | export format "MP4 파일", any upload, start pressed | show the output folder `<cwd>/output` | high; not executed | `ResultFolder.Mp4RunFailsAsWritten` | `ResultFolder.DisplayedFolderForMp4` |
| app.py:266, 437-440 | an empty `project_folder` falls back to the output folder | project export with original path `clip.mp4`, which is not a directory | show the working directory, where `clip_project` is written | medium; not executed | `ResultFolder.BareOriginalPathShowsOutputDir` | `ResultFolder.DisplayedFolderForProject` |

In the first row, the `NameError` is raised after the temporary directories are cleared. It is raised before `processed` is set, so the result panel never reports success for an MP4 run.

## Left out

- Streamlit widgets, layout, CSS and session-state plumbing. Option values are plain inputs.
- The video preview, the file-size display and the "open folder" button (`os.startfile`). These are display only.
- Process I/O. The model leaves out `subprocess.Popen`, line streaming, `process.wait` and the progress-bar calls. `Progress.TrackProgress` takes the output lines as a sequence.
- File-system calls: `mkdtemp`, writing the upload, `makedirs`, `copy2`, `exists`/`isdir` and `rmtree`. Their results are inputs.
- The rewrite of media paths inside the project file (app.py:389-413). It is a chain of overlapping regular-expression substitutions over the tool's output. It also sits behind a check for the session key `original_file_path` (app.py:363, 383), which the text fields at app.py:162 and app.py:171 never set because they have no `key`. Only the escaping at app.py:386 is modelled. The path mapping at app.py:365-372 behind the same check is modelled for its agreement with app.py:241-255.
- `cleanup_temp_dirs` (app.py:11-17) is defined but never called.
- Streamlit reruns the whole script on every interaction. While a file is uploaded, each rerun creates another temporary directory and appends it. `TempDirs.TrackRuns` folds those appends over a sequence of runs. The widget events that trigger each run are not modelled.
- Float formatting of the threshold, margin and speeds. These values are opaque strings.
- Windows paths (`ntpath`). `os.path` is modelled as `posixpath` only.
- Python's Unicode tables. `CharClasses.Tables` states only the properties used, so proofs hold for any tables with those properties.
- `Progress.ReadingIsLeftmostMatch`: the 4300-digit limit on `int()` is CPython's default since the fix for CVE-2020-10735. That fix is in 3.11 and in the 3.10.7, 3.9.14, 3.8.14 and 3.7.14 security releases. Earlier releases, or an interpreter started with the limit turned off, convert runs of any length.
- `Naming.Mp4OutputPathShape`: "no extension" means the application appends none. For a dotted stem such as `clip.v2`, `os.path.splitext` still finds one in `clip.v2_edited`. How the external tool reads such a name is outside this model.

=== FILE: char_classes.dfy ===
/**
 * Python's Unicode character tables, as far as the application relies on them.
 *
 * `re`'s `\w` and `\d`, `int()` on a digit string and `str.split()` all consult
 * Unicode databases that are not modelled here. A `Tables` value stands for
 * them: `isWord` is the class `\w`, `decimal` gives the decimal value of a
 * character (a character is a `\d` digit exactly when that value is 0..9), and
 * `isSpace` is `str.isspace`. `Valid` lists the only facts about those tables
 * that the model uses; every one of them holds of Python's own tables.
 */
module CharClasses {

  datatype RawTables = RawTables(isWord: char -> bool, decimal: char -> int, isSpace: char -> bool)
  {
    /** The regular-expression class `\d`. */
    predicate IsDigit(c: char) {
      0 <= decimal(c) <= 9
    }

    predicate Valid() {
      // `_` is a word character and `/` is not.
      && isWord('_')
      && !isWord('/')
      // ASCII letters and digits are word characters.
      && (forall c: char :: IsAsciiAlnum(c) ==> isWord(c))
      // The ASCII digits are exactly '0'..'9', with their usual values.
      && (forall c: char :: c < 128 as char ==> decimal(c) == AsciiDecimal(c))
      // A space is white space; no visible ASCII character is.
      && isSpace(' ')
      && (forall c: char :: '!' <= c <= '~' ==> !isSpace(c))
    }
  }

  predicate IsAsciiAlnum(c: char) {
    ('a' <= c <= 'z') || ('A' <= c <= 'Z') || ('0' <= c <= '9')
  }

  /** The decimal value of an ASCII character, -1 for a non-digit. */
  function AsciiDecimal(c: char): int {
    if '0' <= c <= '9' then c as int - '0' as int else -1
  }

  /** ASCII-only tables: one lawful instance, used as the witness below. */
  const AsciiTables: RawTables :=
    RawTables(
      c => IsAsciiAlnum(c) || c == '_',
      c => AsciiDecimal(c),
      c => c == ' ' || c == '\t' || c == '\n' || c == '\r')

  /** Any tables with Python's properties. */
  type Tables = t: RawTables | t.Valid() witness AsciiTables
}

=== FILE: command.dfy ===
/**
 * Building the argument vector for the external `auto-editor` tool when the
 * start button is pressed (app.py:108-125, 220-316).
 *
 * Numbers the widgets produce (threshold, margin, the two speeds) are Python
 * floats or ints already formatted by `str`/f-strings; they are carried here
 * as the formatted strings. Facts about the file system that the code asks
 * for (is the given path a directory, does the media file already exist in
 * the project folder, does copying it there succeed) are inputs.
 */
module Command {
  import opened Wrappers
  import opened CharClasses
  import opened PosixPath
  import opened Naming
  import opened ExportFormat
  import opened WhitespaceSplit

  /** The two entries of the edit-method select box (app.py:94-98). */
  datatype EditMethod = Audio | Motion

  /** The two entries of the threshold-type radio (app.py:101-105). */
  datatype ThresholdUnit = Percent | Decibel

  /** The threshold as handed to the tool: the number followed by `%` or `dB` (app.py:108-125). */
  function ThresholdText(unit: ThresholdUnit, number: string): (text: string)
    ensures |number| < |text| && text[..|number|] == number
    ensures unit == Percent <==> text[|number|..] == "%"
    ensures unit == Decibel <==> text[|number|..] == "dB"
  {
    match unit
    case Percent => number + "%"
    case Decibel => number + "dB"
  }

  /** The `--edit` value: the detection mode, then `:threshold=` and the threshold (app.py:226-229). */
  function EditOption(mode: EditMethod, threshold: string): (option: string)
    ensures mode == Audio ==> option == "audio:threshold=" + threshold
    ensures mode == Motion ==> option == "motion:threshold=" + threshold
  {
    (if mode == Audio then "audio" else "motion") + ":threshold=" + threshold
  }

  /** Reads an edit option back: the detection mode and the threshold after `:threshold=`. */
  function ParseEditOption(option: string): (parsed: Option<(EditMethod, string)>)
    ensures parsed.Some? ==> EditOption(parsed.value.0, parsed.value.1) == option
  {
    var audio := "audio:threshold=";
    var motion := "motion:threshold=";
    if |audio| <= |option| && option[..|audio|] == audio then
      assert audio + option[|audio|..] == option;
      Some((Audio, option[|audio|..]))
    else if |motion| <= |option| && option[..|motion|] == motion then
      assert motion + option[|motion|..] == option;
      Some((Motion, option[|motion|..]))
    else None
  }

  /** The edit option loses nothing: the mode and the threshold can be read back from it. */
  lemma EditOptionRoundTrip(mode: EditMethod, threshold: string)
    ensures ParseEditOption(EditOption(mode, threshold)) == Some((mode, threshold))
  {
    var option := EditOption(mode, threshold);
    if mode == Audio {
      assert option[..16] == "audio:threshold=";
      assert option[16..] == threshold;
    } else {
      assert option[..16] != "audio:threshold=" by {
        assert option[0] == 'm';
      }
      assert option[..17] == "motion:threshold=";
      assert option[17..] == threshold;
    }
  }

  /** Everything the sidebar widgets hand over (app.py:94-179). */
  datatype Settings = Settings(
    mode: EditMethod,
    unit: ThresholdUnit,
    threshold: string,
    margin: string,
    silentSpeed: string,
    videoSpeed: string,
    exportChoice: string,
    originalFilePath: string,
    timelineName: string)

  /** The working directory and the answers the file system gives during the build. */
  datatype Host = Host(
    cwd: string,
    tempDir: string,
    originalIsDir: bool,
    mediaExists: bool,
    copySucceeds: bool)

  /** `output_file_type` in the session (app.py:238, 278). */
  datatype FileType = Video | Project

  /** A built command: its arguments, the extensionless target, and the project folder when one was chosen. */
  datatype Invocation = Invocation(
    argv: seq<string>,
    outputBase: string,
    fileType: FileType,
    projectFolder: Option<string>)

  /** A project export was chosen but no original path was typed (app.py:222-223). */
  datatype BuildError = MissingOriginalPath

  predicate IsMp4(s: Settings) {
    s.exportChoice == Mp4Label
  }

  /** The upload is written to `<temp dir>/<upload name>` (app.py:196). */
  function TempPath(host: Host, uploadName: string): (path: string)
    ensures '/' !in uploadName ==> Basename(path) == uploadName
    ensures '/' !in uploadName && FolderForm(host.tempDir) ==> Dirname(path) == host.tempDir
  {
    JoinOfName(host.tempDir, uploadName);
    Join(host.tempDir, uploadName)
  }

  /**
   * The media path given to the tool for a project export (app.py:282-301):
   * the file of the same name in the project folder when it is there or can
   * be copied there, otherwise the temporary upload.
   */
  function ProjectInput(host: Host, folder: string, uploadName: string): (input: string)
    ensures host.mediaExists || host.copySucceeds ==> input == Join(folder, uploadName)
    ensures !host.mediaExists && !host.copySucceeds ==> input == TempPath(host, uploadName)
  {
    if host.mediaExists || host.copySucceeds then Join(folder, uploadName) else TempPath(host, uploadName)
  }

  /** The twelve fixed-position entries that every command starts with (app.py:304-312). */
  function BaseArgv(s: Settings, input: string, outputBase: string): (argv: seq<string>)
    ensures |argv| == 12 && argv[1] == input && argv[11] == outputBase
    ensures ParseEditOption(argv[3]) == Some((s.mode, ThresholdText(s.unit, s.threshold)))
    ensures argv[0] == "auto-editor" && argv[2] == "--edit" && argv[10] == "--output"
    ensures argv[4] == "--margin" && argv[5] == s.margin + "sec"
    ensures argv[6] == "--silent-speed" && argv[7] == s.silentSpeed
    ensures argv[8] == "--video-speed" && argv[9] == s.videoSpeed
  {
    var threshold := ThresholdText(s.unit, s.threshold);
    EditOptionRoundTrip(s.mode, threshold);
    var edit := EditOption(s.mode, threshold);
    [ "auto-editor", input,
      "--edit", edit,
      "--margin", s.margin + "sec",
      "--silent-speed", s.silentSpeed,
      "--video-speed", s.videoSpeed,
      "--output", outputBase ]
  }

  /** The command for an MP4 export (app.py:232-238, 304-312). */
  function Mp4Invocation(t: Tables, s: Settings, uploadName: string, host: Host): (inv: Invocation)
    ensures |inv.argv| == 12
    ensures inv.argv == BaseArgv(s, TempPath(host, uploadName), inv.outputBase)
    ensures inv.outputBase == Mp4OutputPath(t, OutputDir(host.cwd), uploadName)
    ensures inv.fileType == Video && inv.projectFolder == None
  {
    var outputBase := Mp4OutputPath(t, OutputDir(host.cwd), uploadName);
    Invocation(BaseArgv(s, TempPath(host, uploadName), outputBase), outputBase, Video, None)
  }

  /** The command for a project export (app.py:239-316). */
  function ProjectInvocation(t: Tables, s: Settings, uploadName: string, host: Host): (inv: Invocation)
    requires !IsMp4(s)
    ensures |inv.argv| >= 14
    ensures var folder := ProjectFolder(s.originalFilePath, host.originalIsDir);
      && inv.argv[..12] == BaseArgv(s, ProjectInput(host, folder, uploadName), inv.outputBase)
      && inv.outputBase == ProjectOutputPath(folder, uploadName)
      && inv.argv[12..] == Split(t, ExportOption(ExportTarget(s.exportChoice).exportType, s.timelineName))
      && inv.fileType == Project
      && inv.projectFolder == Some(folder)
  {
    var folder := ProjectFolder(s.originalFilePath, host.originalIsDir);
    var outputBase := ProjectOutputPath(folder, uploadName);
    var exportType := ExportTarget(s.exportChoice).exportType;
    var tokens := Split(t, ExportOption(exportType, s.timelineName));
    DefaultOrNamedHasExport(t, exportType, s.timelineName, s.exportChoice);
    var base := BaseArgv(s, ProjectInput(host, folder, uploadName), outputBase);
    var argv := base + tokens;
    assert argv[..12] == base && argv[12..] == tokens;
    Invocation(argv, outputBase, Project, Some(folder))
  }

  /**
   * The command for the start button (app.py:220-316), or the error when a
   * project export has no original path.
   */
  function Build(t: Tables, s: Settings, uploadName: string, host: Host): (r: Result<Invocation, BuildError>)
    ensures r.Failure? <==> !IsMp4(s) && s.originalFilePath == ""
    ensures r.Success? ==> |r.value.argv| >= 12 && r.value.argv[11] == r.value.outputBase
    ensures r.Success? ==> (IsMp4(s) <==> |r.value.argv| == 12)
    ensures r.Success? && IsMp4(s) ==> r.value == Mp4Invocation(t, s, uploadName, host)
    ensures r.Success? && !IsMp4(s) ==> r.value == ProjectInvocation(t, s, uploadName, host)
  {
    if !IsMp4(s) && s.originalFilePath == "" then Failure(MissingOriginalPath)
    else if IsMp4(s) then Success(Mp4Invocation(t, s, uploadName, host))
    else Success(ProjectInvocation(t, s, uploadName, host))
  }

  /** A project command records the project folder and writes to `<folder>/<stem>_project`. */
  lemma ProjectBuildTarget(t: Tables, s: Settings, uploadName: string, host: Host)
    requires !IsMp4(s) && s.originalFilePath != ""
    ensures Build(t, s, uploadName, host).Success?
    ensures var folder := ProjectFolder(s.originalFilePath, host.originalIsDir);
      && Build(t, s, uploadName, host).value.projectFolder == Some(folder)
      && Build(t, s, uploadName, host).value.outputBase == ProjectOutputPath(folder, uploadName)
  {
    var inv := ProjectInvocation(t, s, uploadName, host);
    assert Build(t, s, uploadName, host) == Success(inv);
  }

  /** The export option always yields at least `--export` and one more entry. */
  lemma DefaultOrNamedHasExport(t: Tables, exportType: string, timelineName: string, choice: string)
    requires choice != Mp4Label && exportType == ExportTarget(choice).exportType
    ensures |Split(t, ExportOption(exportType, timelineName))| >= 2
  {
    ExportTypeIsOneWord(t, choice);
    if CustomTimeline(timelineName) {
      NamedOptionTokens(t, exportType, timelineName);
      var rest := exportType + ":name=\"" + timelineName + "\"";
      assert !t.isSpace(rest[0]);
      SplitNonEmpty(t, rest, 0);
    } else {
      DefaultOptionTokens(t, exportType, timelineName);
    }
  }

  /**
   * With the default timeline name a project command ends in exactly
   * `--export <type>`, fourteen entries in all.
   */
  lemma ProjectCommandWithDefaultName(t: Tables, s: Settings, uploadName: string, host: Host)
    requires !IsMp4(s) && s.originalFilePath != ""
    requires !CustomTimeline(s.timelineName)
    ensures Build(t, s, uploadName, host).Success?
    ensures |Build(t, s, uploadName, host).value.argv| == 14
    ensures Build(t, s, uploadName, host).value.argv[12..] == [ExportFlag, ExportTarget(s.exportChoice).exportType]
  {
    ExportTypeIsOneWord(t, s.exportChoice);
    DefaultOptionTokens(t, ExportTarget(s.exportChoice).exportType, s.timelineName);
  }

  /**
   * A custom timeline name containing white space reaches the tool split
   * over several entries: the command has at least fifteen.
   */
  lemma ProjectCommandWithSpacedName(t: Tables, s: Settings, uploadName: string, host: Host, k: nat)
    requires !IsMp4(s) && s.originalFilePath != ""
    requires CustomTimeline(s.timelineName)
    requires k < |s.timelineName| && t.isSpace(s.timelineName[k])
    ensures Build(t, s, uploadName, host).Success?
    ensures |Build(t, s, uploadName, host).value.argv| >= 15
  {
    ExportTypeIsOneWord(t, s.exportChoice);
    SpacedNameIsCutApart(t, ExportTarget(s.exportChoice).exportType, s.timelineName, k);
  }
}

=== FILE: export_format.dfy ===
/**
 * The export choice (app.py:153-157): its labels, the export type and project
 * extension chosen for it (app.py:241-255), the path looked for after the
 * run (app.py:365-372), and the `--export` option (app.py:273-276).
 */
module ExportFormat {
  import opened CharClasses
  import opened WhitespaceSplit

  const Mp4Label := "MP4 파일"
  const PremiereLabel := "Adobe Premiere Pro"
  const ResolveLabel := "DaVinci Resolve"
  const FinalCutLabel := "Final Cut Pro"
  const ShotCutLabel := "ShotCut"
  const ClipsLabel := "개별 클립"

  /** The timeline name the text field starts with; it is never passed on. */
  const DefaultTimeline := "Auto-Editor Media Group"

  /** The labels that name an editor; every other project choice means separate clips. */
  predicate NamesEditor(choice: string) {
    choice == PremiereLabel || choice == ResolveLabel || choice == FinalCutLabel || choice == ShotCutLabel
  }

  datatype Target = Target(exportType: string, ext: string)

  /** The export type and project-file extension for a project export (app.py:241-255). */
  function ExportTarget(choice: string): (target: Target)
    requires choice != Mp4Label
    ensures target.ext == "" <==> !NamesEditor(choice)
    ensures target.exportType == "clip-sequence" <==> !NamesEditor(choice)
    ensures target.ext == ".xml" <==> choice == PremiereLabel || choice == ResolveLabel
    ensures target.ext == ".fcpxml" <==> choice == FinalCutLabel
    ensures target.ext == ".mlt" <==> choice == ShotCutLabel
    ensures choice == PremiereLabel ==> target.exportType == "premiere"
    ensures choice == ResolveLabel ==> target.exportType == "resolve"
    ensures choice == FinalCutLabel ==> target.exportType == "final-cut-pro"
    ensures choice == ShotCutLabel ==> target.exportType == "shotcut"
    ensures choice == ClipsLabel ==> target == Target("clip-sequence", "")
  {
    if choice == PremiereLabel then Target("premiere", ".xml")
    else if choice == ResolveLabel then Target("resolve", ".xml")
    else if choice == FinalCutLabel then Target("final-cut-pro", ".fcpxml")
    else if choice == ShotCutLabel then Target("shotcut", ".mlt")
    else Target("clip-sequence", "")
  }

  /**
   * The file (or, for clips, folder) the application looks for after a
   * project export (app.py:365-372): the extensionless target plus an
   * extension chosen by a second, separate chain of comparisons.
   */
  function CheckedOutputPath(choice: string, base: string): (path: string)
    requires choice != Mp4Label
    ensures |base| <= |path| && path[..|base|] == base
    ensures path == base <==> !NamesEditor(choice)
  {
    if choice == PremiereLabel || choice == ResolveLabel then base + ".xml"
    else if choice == FinalCutLabel then base + ".fcpxml"
    else if choice == ShotCutLabel then base + ".mlt"
    else base
  }

  /** The two mappings agree: the path looked for is the target plus the chosen extension. */
  lemma MappingsAgree(choice: string, base: string)
    requires choice != Mp4Label
    ensures CheckedOutputPath(choice, base) == base + ExportTarget(choice).ext
  {
  }

  /** Whether a timeline name is passed on: only a non-empty name other than the default (app.py:273). */
  predicate CustomTimeline(timelineName: string) {
    timelineName != "" && timelineName != DefaultTimeline
  }

  const ExportFlag := "--export"

  /** What follows `--export `: the type, with `:name="<name>"` for a custom timeline name (app.py:273-276). */
  function ExportDescriptor(exportType: string, timelineName: string): (descriptor: string)
    ensures |exportType| <= |descriptor| && descriptor[..|exportType|] == exportType
    ensures CustomTimeline(timelineName) <==> |descriptor| > |exportType|
  {
    if CustomTimeline(timelineName) then exportType + ":name=\"" + timelineName + "\""
    else exportType
  }

  /** The `--export` option text (app.py:273-276). */
  function ExportOption(exportType: string, timelineName: string): (option: string)
    ensures |option| > |ExportFlag| && option[..|ExportFlag|] == ExportFlag && option[|ExportFlag|] == ' '
    ensures option[|ExportFlag| + 1..] == ExportDescriptor(exportType, timelineName)
  {
    ExportFlag + [' '] + ExportDescriptor(exportType, timelineName)
  }

  /** Every export type is one word: split on white space it stays whole. */
  lemma ExportTypeIsOneWord(t: Tables, choice: string)
    requires choice != Mp4Label
    ensures ExportTarget(choice).exportType != [] && NoSpace(t, ExportTarget(choice).exportType)
  {
  }

  /** Without a custom timeline name the option becomes exactly two argument entries. */
  lemma {:induction false} DefaultOptionTokens(t: Tables, exportType: string, timelineName: string)
    requires exportType != [] && NoSpace(t, exportType)
    requires !CustomTimeline(timelineName)
    ensures Split(t, ExportOption(exportType, timelineName)) == [ExportFlag, exportType]
  {
    assert ExportOption(exportType, timelineName) == ExportFlag + [' '] + exportType;
    SplitAtSpace(t, ExportFlag, ' ', exportType);
    FlagIsOneWord(t);
    SplitWord(t, exportType);
  }

  /** `--export` stays one piece when split on white space. */
  lemma FlagIsOneWord(t: Tables)
    ensures Split(t, ExportFlag) == [ExportFlag]
  {
    assert forall i :: 0 <= i < |ExportFlag| ==> '!' <= ExportFlag[i] <= '~';
    SplitWord(t, ExportFlag);
  }

  /**
   * With a custom timeline name the option is `--export` followed by the
   * white-space pieces of `<type>:name="<name>"`.
   */
  lemma {:induction false} NamedOptionTokens(t: Tables, exportType: string, timelineName: string)
    requires CustomTimeline(timelineName)
    ensures Split(t, ExportOption(exportType, timelineName))
         == [ExportFlag] + Split(t, exportType + ":name=\"" + timelineName + "\"")
  {
    var descriptor := exportType + ":name=\"" + timelineName + "\"";
    assert ExportOption(exportType, timelineName) == ExportFlag + [' '] + descriptor;
    SplitAtSpace(t, ExportFlag, ' ', descriptor);
    FlagIsOneWord(t);
  }

  /**
   * A timeline name containing white space is cut apart: the option yields
   * at least three argument entries, so the name reaches the tool in pieces.
   */
  lemma {:induction false} SpacedNameIsCutApart(t: Tables, exportType: string, timelineName: string, k: nat)
    requires exportType != [] && NoSpace(t, exportType)
    requires CustomTimeline(timelineName)
    requires k < |timelineName| && t.isSpace(timelineName[k])
    ensures |Split(t, ExportOption(exportType, timelineName))| >= 3
  {
    NamedOptionTokens(t, exportType, timelineName);
    SpacedDescriptorSplits(t, exportType, timelineName, k);
  }

  /** A named descriptor whose name contains white space splits into two pieces or more. */
  lemma SpacedDescriptorSplits(t: Tables, exportType: string, name: string, k: nat)
    requires exportType != [] && !t.isSpace(exportType[0])
    requires k < |name| && t.isSpace(name[k])
    ensures |Split(t, exportType + ":name=\"" + name + "\"")| >= 2
  {
    var descriptor := exportType + ":name=\"" + name + "\"";
    DescriptorPositions(exportType, name, k);
    SplitTwoPieces(t, descriptor, 0, |exportType| + 7 + k, |descriptor| - 1);
  }

  /** Where the export type and the name's characters sit in a named descriptor. */
  lemma DescriptorPositions(exportType: string, name: string, k: nat)
    requires exportType != [] && k < |name|
    ensures var descriptor := exportType + ":name=\"" + name + "\"";
      && descriptor[0] == exportType[0]
      && descriptor[|exportType| + 7 + k] == name[k]
      && descriptor[|descriptor| - 1] == '"'
  {
  }
}

=== FILE: naming.dfy ===
/**
 * How the application names its files (app.py:86, 192, 235-237, 258-270):
 * the upload's stem, its sanitised form, the MP4 target and the project
 * export target. Paths are POSIX paths.
 */
module Naming {
  import opened CharClasses
  import opened PosixPath

  /** The fixed output folder `<cwd>/output` (app.py:86). */
  function OutputDir(cwd: string): (dir: string)
    ensures Basename(dir) == "output"
    ensures !EndsWithSep(dir)
  {
    BasenameOfJoin(cwd, "output");
    var dir := Join(cwd, "output");
    assert dir[|dir| - 1] == "output"[5];
    dir
  }

  /** `os.path.splitext(name)[0]`: the file name without its extension. */
  function Stem(name: string): (stem: string)
    ensures |stem| <= |name| && name[..|stem|] == stem
  {
    Splitext(name).0
  }

  /** Characters the pattern `[\w.-]` matches, which sanitising leaves alone. */
  predicate Kept(t: Tables, c: char) {
    t.isWord(c) || c == '.' || c == '-'
  }

  /** `re.sub(r'[^\w\.-]', '_', stem)`: every other character becomes `_` (app.py:235). */
  function Sanitize(t: Tables, stem: string): (safe: string)
    ensures |safe| == |stem|
    ensures forall i :: 0 <= i < |stem| && Kept(t, stem[i]) ==> safe[i] == stem[i]
    ensures forall i :: 0 <= i < |stem| && !Kept(t, stem[i]) ==> safe[i] == '_'
    ensures forall i :: 0 <= i < |safe| ==> Kept(t, safe[i])
  {
    if stem == [] then []
    else [if Kept(t, stem[0]) then stem[0] else '_'] + Sanitize(t, stem[1..])
  }

  /** A sanitised stem cannot start with `/`, so joining it never discards the folder. */
  lemma SanitizeNotAbsolute(t: Tables, stem: string)
    ensures !IsAbsolute(Sanitize(t, stem) + "_edited")
  {
    assert !Kept(t, '/');
    var name := Sanitize(t, stem) + "_edited";
    if stem != [] {
      assert name[0] == Sanitize(t, stem)[0];
    }
  }

  /** The MP4 target `<output dir>/<safe stem>_edited`, still without extension (app.py:235-237). */
  function Mp4OutputPath(t: Tables, outputDir: string, uploadName: string): (path: string)
    ensures |outputDir| < |path| && path[..|outputDir|] == outputDir
    ensures IsSuffix("_edited", path)
  {
    SanitizeNotAbsolute(t, Stem(uploadName));
    SuffixOfSuffix("_edited", Sanitize(t, Stem(uploadName)) + "_edited",
      Join(outputDir, Sanitize(t, Stem(uploadName)) + "_edited"));
    Join(outputDir, Sanitize(t, Stem(uploadName)) + "_edited")
  }

  /**
   * The folder a project export goes to (app.py:261-266): the given path when
   * it names a directory, otherwise the directory part of the path.
   */
  function ProjectFolder(originalPath: string, isDir: bool): (folder: string)
    ensures |folder| <= |originalPath| && originalPath[..|folder|] == folder
    ensures isDir ==> folder == originalPath
    ensures !isDir ==> |folder| + |Basename(originalPath)| <= |originalPath|
    ensures !isDir ==> (folder == [] <==> '/' !in originalPath) && FolderForm(folder)
  {
    if isDir then originalPath else Dirname(originalPath)
  }

  /** The project target `<project folder>/<original stem>_project`, without extension (app.py:258, 270). */
  function ProjectOutputPath(folder: string, uploadName: string): (path: string)
    ensures IsSuffix("_project", path)
  {
    SuffixOfSuffix("_project", Stem(uploadName) + "_project", Join(folder, Stem(uploadName) + "_project"));
    Join(folder, Stem(uploadName) + "_project")
  }

  /**
   * The fixed output folder sits directly in the working directory, which
   * `os.getcwd()` returns without a trailing `/` except for the root `/`.
   */
  lemma OutputDirInWorkingDir(cwd: string)
    requires FolderForm(cwd)
    ensures Dirname(OutputDir(cwd)) == cwd
  {
    DirnameOfJoin(cwd, "output");
  }

  /** A sanitised stem never contains `/`, so it cannot leave the output folder. */
  lemma SanitizedHasNoSeparator(t: Tables, stem: string)
    ensures '/' !in Sanitize(t, stem)
  {
    assert !Kept(t, '/');
  }

  /**
   * The MP4 target is the file `<safe stem>_edited` directly inside the
   * output folder, and the application adds no extension to it.
   */
  lemma Mp4OutputPathShape(t: Tables, outputDir: string, uploadName: string)
    ensures Basename(Mp4OutputPath(t, outputDir, uploadName)) == Sanitize(t, Stem(uploadName)) + "_edited"
    ensures FolderForm(outputDir) ==> Dirname(Mp4OutputPath(t, outputDir, uploadName)) == outputDir
  {
    var name := Sanitize(t, Stem(uploadName)) + "_edited";
    SanitizedHasNoSeparator(t, Stem(uploadName));
    BasenameOfJoin(outputDir, name);
    if FolderForm(outputDir) {
      DirnameOfJoin(outputDir, name);
    }
  }

  /**
   * The project target ends in `_project`; for an upload name without `/` it
   * is the file `<stem>_project` directly inside the project folder.
   */
  lemma ProjectOutputPathShape(folder: string, uploadName: string)
    ensures IsSuffix("_project", ProjectOutputPath(folder, uploadName))
    ensures '/' !in uploadName ==> Basename(ProjectOutputPath(folder, uploadName)) == Stem(uploadName) + "_project"
    ensures '/' !in uploadName && FolderForm(folder) ==> Dirname(ProjectOutputPath(folder, uploadName)) == folder
  {
    var name := Stem(uploadName) + "_project";
    assert IsSuffix("_project", name);
    SuffixOfSuffix("_project", name, Join(folder, name));
    if '/' !in uploadName {
      ProjectNameHasNoSeparator(uploadName);
      BasenameOfJoin(folder, name);
      if FolderForm(folder) {
        DirnameOfJoin(folder, name);
      }
    }
  }

  /** The project file name for an upload name without `/` has no `/` either. */
  lemma ProjectNameHasNoSeparator(name: string)
    requires '/' !in name
    ensures '/' !in Stem(name) + "_project"
  {
    var stem, suffix := Stem(name), "_project";
    assert forall i :: 0 <= i < |stem| ==> stem[i] == name[i];
    assert forall i :: 0 <= i < |suffix| ==> suffix[i] != '/';
    assert forall i :: 0 <= i < |stem + suffix| ==> (stem + suffix)[i] == if i < |stem| then stem[i] else suffix[i - |stem|];
  }

  /** Sanitising a sanitised stem changes nothing. */
  lemma SanitizeIdempotent(t: Tables, stem: string)
    ensures Sanitize(t, Sanitize(t, stem)) == Sanitize(t, stem)
  {
  }

  /**
   * An ordinary upload name passes through unchanged: a stem made only of
   * ASCII letters, digits, `_`, `.` and `-` is its own sanitised form.
   */
  lemma OrdinaryStemIsUnchanged(t: Tables, stem: string)
    requires forall i :: 0 <= i < |stem| ==> IsAsciiAlnum(stem[i]) || stem[i] in "_.-"
    ensures Sanitize(t, stem) == stem
  {
  }

  /** A stem is left as it is exactly when every character in it is kept. */
  lemma SanitizeFixesExactlyKeptStems(t: Tables, stem: string)
    ensures Sanitize(t, stem) == stem <==> forall i :: 0 <= i < |stem| ==> Kept(t, stem[i])
  {
  }
}

=== FILE: posix_path.dfy ===
/**
 * The parts of Python's `posixpath` (what `os.path` is on a POSIX host) that
 * the application calls: `join` with two arguments, `dirname` and `splitext`.
 * `basename`, which the application does not call, is modelled only to state
 * what a join produces. The separator is `/` and the extension separator is `.`.
 */
module PosixPath {

  /** Index of the last occurrence of `c` in `s`, or -1 (Python's `str.rfind`). */
  function LastIndex(s: string, c: char): (i: int)
    ensures -1 <= i < |s|
    ensures 0 <= i ==> s[i] == c
    ensures forall k :: i < k < |s| ==> s[k] != c
  {
    if s == [] then -1
    else if s[|s| - 1] == c then |s| - 1
    else LastIndex(s[..|s| - 1], c)
  }

  predicate IsSuffix(b: string, p: string) {
    |b| <= |p| && p[|p| - |b|..] == b
  }

  lemma SuffixOfSuffix(a: string, b: string, c: string)
    requires IsSuffix(a, b) && IsSuffix(b, c)
    ensures IsSuffix(a, c)
  {
    assert forall k :: 0 <= k < |a| ==> c[|c| - |a| + k] == b[|b| - |a| + k] == a[k];
  }

  predicate IsAbsolute(b: string) {
    |b| > 0 && b[0] == '/'
  }

  predicate EndsWithSep(a: string) {
    |a| > 0 && a[|a| - 1] == '/'
  }

  predicate AllChar(s: string, c: char) {
    forall k :: 0 <= k < |s| ==> s[k] == c
  }

  /** A folder as `dirname` writes it: no trailing `/` unless it consists of slashes only (`/`, `//`). */
  predicate FolderForm(a: string) {
    !EndsWithSep(a) || AllChar(a, '/')
  }

  /** `os.path.join(a, b)`: an absolute `b` discards `a`; otherwise one `/` is put between them when needed. */
  function Join(a: string, b: string): (p: string)
    ensures IsSuffix(b, p)
    ensures IsAbsolute(b) ==> p == b
    ensures !IsAbsolute(b) ==> |a| + |b| <= |p| <= |a| + 1 + |b| && p[..|a|] == a
    ensures !IsAbsolute(b) && |p| == |a| + 1 + |b| ==> p[|a|] == '/'
    ensures !IsAbsolute(b) ==> (|p| == |a| + |b| <==> a == [] || EndsWithSep(a))
  {
    if IsAbsolute(b) then b
    else if a == [] || EndsWithSep(a) then a + b
    else a + "/" + b
  }

  /** `os.path.basename(p)`: everything after the last `/`. */
  function Basename(p: string): (b: string)
    ensures IsSuffix(b, p)
    ensures '/' !in b
    ensures |b| < |p| ==> p[|p| - |b| - 1] == '/'
  {
    var i := LastIndex(p, '/');
    p[i + 1..]
  }

  /** `s.rstrip(c)` for a single character `c`. */
  function RStrip(s: string, c: char): (r: string)
    ensures |r| <= |s| && s[..|r|] == r
    ensures r == [] || r[|r| - 1] != c
    ensures forall k :: |r| <= k < |s| ==> s[k] == c
  {
    if s != [] && s[|s| - 1] == c then RStrip(s[..|s| - 1], c) else s
  }

  /**
   * `os.path.dirname(p)`: everything up to the last `/`, with the trailing
   * slashes removed unless that part consists of slashes only.
   */
  function Dirname(p: string): (d: string)
    ensures |d| <= |p| && p[..|d|] == d
    ensures |d| + |Basename(p)| <= |p|
    ensures forall k :: |d| <= k < |p| - |Basename(p)| ==> p[k] == '/'
    ensures FolderForm(d)
    ensures d == [] <==> '/' !in p
  {
    var i := LastIndex(p, '/');
    var head := p[..i + 1];
    assert |Basename(p)| == |p| - i - 1;
    if head != [] && !AllChar(head, '/') then
      var d := RStrip(head, '/');
      assert forall k :: |d| <= k <= i ==> p[k] == head[k] == '/';
      d
    else
      assert forall k :: 0 <= k <= i ==> p[k] == head[k];
      head
  }

  predicate HasNonDot(s: string, lo: int, hi: int)
    requires 0 <= lo <= hi <= |s|
  {
    exists k :: lo <= k < hi && s[k] != '.'
  }

  /** A name whose dots all come before its first other character (`.bashrc`, `..`). */
  predicate OnlyLeadingDots(b: string) {
    forall k :: 0 <= k < |b| && b[k] == '.' ==> !HasNonDot(b, 0, k)
  }

  /**
   * `os.path.splitext(p)`: the extension is the last `.` of the base name and
   * what follows it, unless every character before that dot in the base name
   * is itself a dot; the root is the rest.
   */
  function Splitext(p: string): (parts: (string, string))
    ensures parts.0 + parts.1 == p
    ensures parts.1 != [] ==> parts.1[0] == '.' && '/' !in parts.1 && '.' !in parts.1[1..]
  {
    var sep := LastIndex(p, '/');
    var dot := LastIndex(p, '.');
    if dot > sep && HasNonDot(p, sep + 1, dot) then (p[..dot], p[dot..]) else (p, "")
  }

  /** An extension is split off exactly when the base name has a dot preceded by some other character. */
  lemma SplitextSplitsAtNamedDot(p: string)
    ensures var (root, ext) := Splitext(p);
      && (ext != [] ==> !OnlyLeadingDots(Basename(root) + "."))
      && (ext == [] ==> OnlyLeadingDots(Basename(p)))
  {
    var sep := LastIndex(p, '/');
    var dot := LastIndex(p, '.');
    if dot > sep && HasNonDot(p, sep + 1, dot) {
      NamedDotBeforeExtension(p, sep, dot);
    } else {
      NoNamedDotInBasename(p, sep, dot);
    }
  }

  /** When `splitext` splits, the root's base name followed by the dot has a named dot. */
  lemma NamedDotBeforeExtension(p: string, sep: int, dot: int)
    requires sep == LastIndex(p, '/') && dot == LastIndex(p, '.')
    requires sep < dot && HasNonDot(p, sep + 1, dot)
    ensures !OnlyLeadingDots(Basename(p[..dot]) + ".")
  {
    BasenameOfPrefix(p, dot);
    NamedDotInRange(p, sep + 1, dot);
  }

  lemma NamedDotInRange(p: string, lo: int, hi: int)
    requires 0 <= lo <= hi <= |p| && HasNonDot(p, lo, hi)
    ensures !OnlyLeadingDots(p[lo..hi] + ".")
  {
    var k :| lo <= k < hi && p[k] != '.';
    assert p[lo..hi][k - lo] == p[k];
    NamedDotAfter(p[lo..hi], k - lo);
  }

  /** A name with some character other than a dot, followed by a dot, has a named dot. */
  lemma NamedDotAfter(b: string, j: int)
    requires 0 <= j < |b| && b[j] != '.'
    ensures !OnlyLeadingDots(b + ".")
  {
    var named := b + ".";
    assert named[j] == b[j];
    assert HasNonDot(named, 0, |b|);
    assert named[|b|] == '.';
  }

  /** When `splitext` does not split, every dot of the base name is a leading one. */
  lemma NoNamedDotInBasename(p: string, sep: int, dot: int)
    requires sep == LastIndex(p, '/') && dot == LastIndex(p, '.')
    requires !(dot > sep && HasNonDot(p, sep + 1, dot))
    ensures OnlyLeadingDots(Basename(p))
  {
    var b := Basename(p);
    assert b == p[sep + 1..];
    forall k | 0 <= k < |b| && b[k] == '.'
      ensures !HasNonDot(b, 0, k)
    {
      assert p[sep + 1 + k] == '.';
      assert sep + 1 + k <= dot;
    }
  }

  /** Cutting `p` after its last `/` keeps the base name's start. */
  lemma BasenameOfPrefix(p: string, n: int)
    requires LastIndex(p, '/') < n <= |p|
    ensures Basename(p[..n]) == p[LastIndex(p, '/') + 1..n]
  {
    LastIndexOfPrefix(p, '/', n);
  }

  /** Both halves of a join of a name without `/` can be read back. */
  lemma JoinOfName(a: string, b: string)
    ensures '/' !in b ==> Basename(Join(a, b)) == b
    ensures '/' !in b && FolderForm(a) ==> Dirname(Join(a, b)) == a
  {
    if '/' !in b {
      BasenameOfJoin(a, b);
      if FolderForm(a) {
        DirnameOfJoin(a, b);
      }
    }
  }

  /** Cutting `s` after its last `c` keeps that occurrence the last one. */
  lemma LastIndexOfPrefix(s: string, c: char, n: int)
    requires LastIndex(s, c) < n <= |s|
    ensures LastIndex(s[..n], c) == LastIndex(s, c)
  {
  }

  /** Joining a name without `/` makes that name the base name of the result. */
  lemma {:induction false} BasenameOfJoin(a: string, b: string)
    requires '/' !in b
    ensures Basename(Join(a, b)) == b
  {
    var p := Join(a, b);
    var i := LastIndex(p, '/');
    var n := |p| - |b|;
    assert p[n..] == b;
    if a != [] && !EndsWithSep(a) {
      assert p[n - 1] == '/';
    } else if a != [] {
      assert p[n - 1] == a[|a| - 1] == '/';
    }
  }

  /** Joining a name without `/` onto a folder in the form `dirname` writes gives back that folder as the directory. */
  lemma {:induction false} DirnameOfJoin(a: string, b: string)
    requires '/' !in b
    requires FolderForm(a)
    ensures Dirname(Join(a, b)) == a
  {
    var p := Join(a, b);
    if a == [] {
      assert p == b;
    } else if EndsWithSep(a) {
      assert p == a + b;
      var i := LastIndex(p, '/');
      assert i == |a| - 1 by {
        assert p[|a| - 1] == '/';
        assert forall k :: |a| <= k < |p| ==> p[k] == b[k - |a|];
      }
      assert p[..i + 1] == a;
    } else {
      assert p == a + "/" + b;
      var i := LastIndex(p, '/');
      assert i >= |a| by {
        assert p[|a|] == '/';
      }
      var head := p[..i + 1];
      assert head == a + "/";
      assert head[|a| - 1] != '/';
      assert RStrip(head, '/') == RStrip(a, '/');
    }
  }
}

=== FILE: progress.dfy ===
/**
 * The progress read-out while the tool runs (app.py:339-353): each output
 * line that mentions both `%` and `Progress:` is searched for the pattern
 * `(\d+)%`; the digits of the leftmost match become the new percentage.
 */
module Progress {
  import opened Wrappers
  import opened CharClasses

  const ProgressMarker := "Progress:"

  /**
   * CPython refuses to convert a decimal string of more digits than this
   * (the limit added for CVE-2020-10735 in 3.11 and in the 3.10.7, 3.9.14,
   * 3.8.14 and 3.7.14 security releases); `int()` raises `ValueError`,
   * which the line's `except Exception` swallows.
   */
  const MaxStrDigits := 4300

  predicate OccursAt(line: string, part: string, i: int) {
    0 <= i && i + |part| <= |line| && line[i..i + |part|] == part
  }

  /** Python's `part in line` for strings. */
  predicate Contains(line: string, part: string) {
    exists i :: 0 <= i <= |line| && OccursAt(line, part, i)
  }

  predicate AllDigits(t: Tables, s: string) {
    forall k :: 0 <= k < |s| ==> t.IsDigit(s[k])
  }

  /** `line[a..b]` is non-empty, all digits, and followed by `%`: a match of `(\d+)%` at `a`. */
  predicate PercentAt(t: Tables, line: string, a: int, b: int) {
    0 <= a < b < |line| && line[b] == '%' && AllDigits(t, line[a..b])
  }

  /** No match of `(\d+)%` starts at `a`. */
  ghost predicate NoMatchAt(t: Tables, line: string, a: int) {
    forall b :: !PercentAt(t, line, a, b)
  }

  /** The end of the run of digits that starts at `i`. */
  function RunEnd(t: Tables, line: string, i: nat): (e: nat)
    requires i <= |line|
    ensures i <= e <= |line|
    ensures forall k :: i <= k < e ==> t.IsDigit(line[k])
    ensures e < |line| ==> !t.IsDigit(line[e])
    decreases |line| - i
  {
    if i < |line| && t.IsDigit(line[i]) then RunEnd(t, line, i + 1) else i
  }

  /** A match at `a` can only end where the digit run from `a` ends. */
  lemma MatchEndsAtRunEnd(t: Tables, line: string, a: nat, b: int)
    requires a <= |line| && PercentAt(t, line, a, b)
    ensures b == RunEnd(t, line, a)
  {
    var e := RunEnd(t, line, a);
    assert !t.IsDigit('%');
  }

  /** `re.search(r'(\d+)%', line[from..])`: the leftmost match at or after `from`. */
  function Search(t: Tables, line: string, from: nat): (m: Option<(nat, nat)>)
    requires from <= |line|
    ensures m.Some? ==> from <= m.value.0 && PercentAt(t, line, m.value.0, m.value.1)
    ensures m.Some? ==> forall a, b :: from <= a < m.value.0 ==> !PercentAt(t, line, a, b)
    ensures m.None? ==> forall a, b :: from <= a ==> !PercentAt(t, line, a, b)
    decreases |line| - from
  {
    if from == |line| then None
    else
      var e := RunEnd(t, line, from);
      assert forall b :: PercentAt(t, line, from, b) ==> b == e by {
        forall b | PercentAt(t, line, from, b) ensures b == e {
          MatchEndsAtRunEnd(t, line, from, b);
        }
      }
      if from < e < |line| && line[e] == '%' then
        assert line[from..e] == line[from..][..e - from];
        Some((from, e))
      else
        Search(t, line, from + 1)
  }

  function Pow10(n: nat): (p: nat)
    ensures p >= 1
  {
    if n == 0 then 1 else 10 * Pow10(n - 1)
  }

  /** `int(digits)` for a string of decimal digits. */
  function DecimalValue(t: Tables, digits: string): (v: nat)
    requires AllDigits(t, digits)
    ensures v < Pow10(|digits|)
  {
    if digits == [] then 0
    else
      var init := digits[..|digits| - 1];
      assert AllDigits(t, init) by {
        assert forall k :: 0 <= k < |init| ==> init[k] == digits[k];
      }
      var d := t.decimal(digits[|digits| - 1]);
      assert DecimalValue(t, init) <= Pow10(|init|) - 1;
      10 * DecimalValue(t, init) + d
  }

  /**
   * Positional notation read from the left: the digits of `a + b` are worth
   * those of `a` shifted by `|b|` places plus those of `b`.
   */
  lemma {:induction false} DecimalValueAppend(t: Tables, a: string, b: string)
    requires AllDigits(t, a) && AllDigits(t, b)
    ensures AllDigits(t, a + b)
    ensures DecimalValue(t, a + b) == DecimalValue(t, a) * Pow10(|b|) + DecimalValue(t, b)
    decreases |b|
  {
    AllDigitsConcat(t, a, b);
    if b == [] {
      assert a + b == a;
    } else {
      var init, c := b[..|b| - 1], b[|b| - 1];
      assert b == init + [c];
      assert a + b == (a + init) + [c];
      assert AllDigits(t, init) by {
        assert forall k :: 0 <= k < |init| ==> init[k] == b[k];
      }
      DecimalValueAppend(t, a, init);
      DecimalValueSnoc(t, a + init, c);
      DecimalValueSnoc(t, init, c);
      ShiftByTen(DecimalValue(t, a), Pow10(|init|), DecimalValue(t, init), t.decimal(c));
    }
  }

  /** Appending one digit shifts the value one place and adds that digit. */
  lemma DecimalValueSnoc(t: Tables, s: string, c: char)
    requires AllDigits(t, s + [c])
    ensures AllDigits(t, s)
    ensures DecimalValue(t, s + [c]) == 10 * DecimalValue(t, s) + t.decimal(c)
  {
    assert forall k :: 0 <= k < |s| ==> s[k] == (s + [c])[k];
    assert (s + [c])[..|s|] == s;
  }

  lemma AllDigitsConcat(t: Tables, a: string, b: string)
    requires AllDigits(t, a) && AllDigits(t, b)
    ensures AllDigits(t, a + b)
  {
    forall k | 0 <= k < |a + b|
      ensures t.IsDigit((a + b)[k])
    {
      if k < |a| { assert (a + b)[k] == a[k]; } else { assert (a + b)[k] == b[k - |a|]; }
    }
  }

  lemma ShiftByTen(x: int, p: int, y: int, d: int)
    ensures 10 * (x * p + y) + d == x * (10 * p) + (10 * y + d)
  {
  }

  /** The leading digit contributes its value times ten to the number of digits after it. */
  lemma LeadingDigitValue(t: Tables, c: char, s: string)
    requires t.IsDigit(c) && AllDigits(t, s)
    ensures AllDigits(t, [c] + s)
    ensures DecimalValue(t, [c] + s) == t.decimal(c) * Pow10(|s|) + DecimalValue(t, s)
  {
    var one: string := [c];
    assert AllDigits(t, one);
    assert one[..0] == [];
    assert DecimalValue(t, one) == t.decimal(c);
    DecimalValueAppend(t, one, s);
  }

  /**
   * The percentage a line reports, if any (app.py:345-353): nothing unless
   * the line contains both `%` and `Progress:` and the pattern matches, and
   * nothing when the digit run is too long for `int()`.
   */
  function Reading(t: Tables, line: string): (r: Option<nat>)
    ensures r.Some? ==> Contains(line, ProgressMarker) && Contains(line, "%")
  {
    if Contains(line, "%") && Contains(line, ProgressMarker) then
      match Search(t, line, 0)
      case None => None
      case Some((a, b)) =>
        if b - a > MaxStrDigits then None
        else Some(DecimalValue(t, line[a..b]))
    else None
  }

  /** `progress_percentage` after one line: the line's reading, or the value it had. */
  function Update(t: Tables, prev: int, line: string): (next: int)
    ensures !Contains(line, ProgressMarker) || !Contains(line, "%") ==> next == prev
    ensures next != prev ==> next >= 0
  {
    match Reading(t, line)
    case Some(v) => v
    case None => prev
  }

  /**
   * On a line with the marker, the reading is the value of the leftmost
   * `(\d+)%` match, unless that match has too many digits for `int()`.
   */
  lemma ReadingIsLeftmostMatch(t: Tables, line: string, a: nat, b: nat)
    requires Contains(line, ProgressMarker)
    requires PercentAt(t, line, a, b)
    requires forall a' :: 0 <= a' < a ==> NoMatchAt(t, line, a')
    ensures b - a <= MaxStrDigits ==> Reading(t, line) == Some(DecimalValue(t, line[a..b]))
    ensures b - a > MaxStrDigits ==> Reading(t, line) == None
  {
    assert OccursAt(line, "%", b);
    var m := Search(t, line, 0);
    assert m.Some?;
    assert m.value.0 >= a by {
      assert m.value.0 < a ==> NoMatchAt(t, line, m.value.0);
    }
    MatchEndsAtRunEnd(t, line, a, b);
    MatchEndsAtRunEnd(t, line, a, m.value.1);
  }

  /** Without the marker, or without any `(\d+)%` match, a line leaves the percentage alone. */
  lemma NoReadingWithoutMatch(t: Tables, line: string, prev: int)
    requires !Contains(line, ProgressMarker) || forall a, b :: !PercentAt(t, line, a, b)
    ensures Update(t, prev, line) == prev
  {
  }

  /** No match of `(\d+)%` starts at a character that is not a digit. */
  lemma NoMatchAtNonDigit(t: Tables, line: string, a: nat)
    requires a < |line| && !t.IsDigit(line[a])
    ensures NoMatchAt(t, line, a)
  {
  }

  lemma DecimalValue150(t: Tables)
    ensures AllDigits(t, "150") && DecimalValue(t, "150") == 150
  {
    assert t.decimal('1') == 1 && t.decimal('5') == 5 && t.decimal('0') == 0;
    assert "1"[..0] == "";
    assert DecimalValue(t, "1") == 1;
    assert "15"[..1] == "1";
    assert DecimalValue(t, "15") == 15;
    assert "150"[..2] == "15";
  }

  /** A line reporting more than a hundred percent is taken as it is: nothing clamps the value. */
  lemma OverHundredIsKept(t: Tables, prev: int)
    ensures Update(t, prev, "Progress: 150%") == 150
  {
    var line := "Progress: 150%";
    assert OccursAt(line, ProgressMarker, 0);
    DecimalValue150(t);
    assert line[10..13] == "150";
    assert PercentAt(t, line, 10, 13);
    forall a | 0 <= a < 10
      ensures NoMatchAt(t, line, a)
    {
      NoMatchAtNonDigit(t, line, a);
    }
    ReadingIsLeftmostMatch(t, line, 10, 13);
  }

  /**
   * The loop over the tool's output (app.py:339-353): the percentage ends as
   * the reading of the last line that gave one, or 0 when none did.
   */
  method TrackProgress(t: Tables, lines: seq<string>) returns (percentage: int)
    ensures (forall i :: 0 <= i < |lines| ==> Reading(t, lines[i]).None?) ==> percentage == 0
    ensures forall i :: 0 <= i < |lines| && Reading(t, lines[i]).Some? ==>
      ((forall j :: i < j < |lines| ==> Reading(t, lines[j]).None?) ==> percentage == Reading(t, lines[i]).value)
  {
    percentage := 0;
    ghost var last := -1;
    for i := 0 to |lines|
      invariant -1 <= last < i
      invariant last == -1 ==> percentage == 0
      invariant last == -1 ==> forall j :: 0 <= j < i ==> Reading(t, lines[j]).None?
      invariant last >= 0 ==> Reading(t, lines[last]) == Some(percentage)
      invariant forall j :: last < j < i ==> Reading(t, lines[j]).None?
    {
      if Reading(t, lines[i]).Some? {
        last := i;
      }
      percentage := Update(t, percentage, lines[i]);
    }
  }
}

=== FILE: result_folder.dfy ===
/**
 * The result folder shown after a run (app.py:436-442), as the code is
 * written and as it is evidently meant.
 *
 * As written, the folder is `project_folder` when it is non-empty and the
 * output folder otherwise. Two things go wrong:
 *   - on the MP4 path `project_folder` is never assigned, so reading it
 *     raises `NameError` once the run has finished;
 *   - when the original path is a bare file name, `project_folder` is the
 *     empty string, the project file is written to the working directory,
 *     but the output folder is shown.
 * The corrected reading shows the folder the output path actually lies in.
 */
module ResultFolder {
  import opened Wrappers
  import opened CharClasses
  import opened PosixPath
  import opened Naming
  import opened Command

  /** An exception the script raises. */
  datatype ScriptError = NameError(name: string)

  /** app.py:437-440 as written; `None` stands for a `project_folder` that was never assigned. */
  function DisplayedFolderAsWritten(projectFolder: Option<string>, outputDir: string): (r: Result<string, ScriptError>)
    ensures r.Failure? <==> projectFolder.None?
    ensures projectFolder == Some("") ==> r == Success(outputDir)
    ensures projectFolder.Some? && projectFolder.value != "" ==> r == Success(projectFolder.value)
  {
    match projectFolder
    case None => Failure(NameError("project_folder"))
    case Some(f) => Success(if f != "" then f else outputDir)
  }

  /**
   * The corrected folder: the directory part of the output path, or the
   * working directory when the output path is a bare name.
   */
  function DisplayedFolder(outputBase: string, cwd: string): (folder: string)
    ensures Dirname(outputBase) != "" ==> folder == Dirname(outputBase)
    ensures Dirname(outputBase) == "" ==> folder == cwd
  {
    var d := Dirname(outputBase);
    if d != "" then d else cwd
  }

  /** As written, every MP4 run ends in `NameError` instead of showing the output folder. */
  lemma Mp4RunFailsAsWritten(t: Tables, s: Settings, uploadName: string, host: Host)
    requires IsMp4(s)
    ensures Build(t, s, uploadName, host).Success?
    ensures DisplayedFolderAsWritten(Build(t, s, uploadName, host).value.projectFolder, OutputDir(host.cwd))
         == Failure(NameError("project_folder"))
  {
  }

  /**
   * As written, a bare original path such as `clip.mp4` puts the project
   * file in the working directory but shows the output folder, which is a
   * different directory.
   */
  lemma BareOriginalPathShowsOutputDir(t: Tables, s: Settings, uploadName: string, host: Host)
    requires !IsMp4(s) && s.originalFilePath == "clip.mp4" && !host.originalIsDir
    requires '/' !in uploadName
    ensures Build(t, s, uploadName, host).Success?
    ensures Dirname(Build(t, s, uploadName, host).value.outputBase) == ""
    ensures DisplayedFolderAsWritten(Build(t, s, uploadName, host).value.projectFolder, OutputDir(host.cwd))
         == Success(OutputDir(host.cwd))
    ensures OutputDir(host.cwd) != host.cwd
  {
    BareFileHasNoFolder();
    ProjectBuildTarget(t, s, uploadName, host);
    ProjectOutputPathShape("", uploadName);
    OutputDirIsLonger(host.cwd);
  }

  /** A bare file name has no directory part, so its project folder is empty. */
  lemma BareFileHasNoFolder()
    ensures ProjectFolder("clip.mp4", false) == ""
  {
    assert forall k :: 0 <= k < |"clip.mp4"| ==> "clip.mp4"[k] != '/';
  }

  lemma OutputDirIsLonger(cwd: string)
    ensures |OutputDir(cwd)| >= |cwd| + 6
  {
    assert !IsAbsolute("output");
  }

  /** Corrected: an MP4 run shows the output folder, where the video was written. */
  lemma DisplayedFolderForMp4(t: Tables, s: Settings, uploadName: string, host: Host)
    requires IsMp4(s)
    ensures Build(t, s, uploadName, host).Success?
    ensures DisplayedFolder(Build(t, s, uploadName, host).value.outputBase, host.cwd) == OutputDir(host.cwd)
  {
    Mp4OutputPathShape(t, OutputDir(host.cwd), uploadName);
  }

  /**
   * Corrected: a project run shows the project folder when it is named, and
   * the working directory, where the file was written, when it is empty.
   */
  lemma DisplayedFolderForProject(t: Tables, s: Settings, uploadName: string, host: Host)
    requires !IsMp4(s) && s.originalFilePath != ""
    requires '/' !in uploadName
    ensures Build(t, s, uploadName, host).Success?
    ensures var folder := ProjectFolder(s.originalFilePath, host.originalIsDir);
      var shown := DisplayedFolder(Build(t, s, uploadName, host).value.outputBase, host.cwd);
      && (folder == "" ==> shown == host.cwd)
      && (folder != "" && FolderForm(folder) ==> shown == folder)
  {
    var folder := ProjectFolder(s.originalFilePath, host.originalIsDir);
    ProjectOutputPathShape(folder, uploadName);
  }
}

=== FILE: temp_dirs.dfy ===
/**
 * The session's list of temporary upload directories, `temp_directories`
 * (app.py:20-21): what an upload adds (app.py:195-199), what the end of a
 * run does with it (app.py:419-427), and the "clear temporary files" button
 * (app.py:483-498).
 *
 * Whether removing a directory fails on disk is an input, `fails`: the code
 * always calls `shutil.rmtree(dir, ignore_errors=True)`, which swallows the
 * failure instead of raising.
 */
module TempDirs {

  /** The tracked directories, oldest first. */
  type DirList = seq<string>

  /** An upload creates one temporary directory and appends it; nothing else changes (app.py:195-199). */
  function TrackUpload(dirs: DirList, dir: string): (r: DirList)
    ensures |r| == |dirs| + 1
    ensures r[..|dirs|] == dirs && r[|dirs|] == dir
  {
    dirs + [dir]
  }

  /**
   * Streamlit runs the whole script again on every interaction, and while a
   * file is uploaded each run creates and records one more directory. After
   * the runs that created `created`, the list is the old one followed by
   * those directories, in order.
   */
  function TrackRuns(dirs: DirList, created: seq<string>): (r: DirList)
    ensures |r| == |dirs| + |created|
    ensures r[..|dirs|] == dirs
    decreases |created|
  {
    if created == [] then dirs
    else TrackRuns(TrackUpload(dirs, created[0]), created[1..])
  }

  lemma {:induction false} TrackRunsAppends(dirs: DirList, created: seq<string>)
    ensures TrackRuns(dirs, created) == dirs + created
    ensures |TrackRuns(dirs, created)| == |dirs| + |created|
    decreases |created|
  {
    if created != [] {
      TrackRunsAppends(dirs + [created[0]], created[1..]);
      assert dirs + [created[0]] + created[1..] == dirs + created;
    }
  }

  /** Whether a call to `shutil.rmtree` returned or raised. */
  datatype RemoveOutcome = Returned | Raised

  /** `shutil.rmtree(dir, ignore_errors=...)`: a failure raises only when errors are not ignored. */
  function RemoveTree(ignoreErrors: bool, fails: bool): (o: RemoveOutcome)
    ensures o == Raised <==> fails && !ignoreErrors
  {
    if fails && !ignoreErrors then Raised else Returned
  }

  /** The tracked directories whose removal really succeeds. */
  function Deleted(fails: string -> bool, dirs: DirList): (r: DirList)
    ensures |r| <= |dirs|
    ensures forall d :: d in r <==> d in dirs && !fails(d)
  {
    if dirs == [] then []
    else Deleted(fails, dirs[..|dirs| - 1]) + (if fails(dirs[|dirs| - 1]) then [] else [dirs[|dirs| - 1]])
  }

  /**
   * End-of-run cleanup (app.py:419-427): every tracked directory is handed
   * to `rmtree`, no error is ever logged, and the list is emptied.
   */
  method CleanupAfterRun(fails: string -> bool, dirs: DirList) returns (remaining: DirList, attempted: DirList, errorsLogged: nat)
    ensures attempted == dirs
    ensures errorsLogged == 0
    ensures remaining == []
  {
    attempted := [];
    errorsLogged := 0;
    for i := 0 to |dirs|
      invariant attempted == dirs[..i]
      invariant errorsLogged == 0
    {
      var outcome := RemoveTree(true, fails(dirs[i]));
      attempted := attempted + [dirs[i]];
      errorsLogged := errorsLogged + (if outcome == Raised then 1 else 0);
    }
    assert dirs[..|dirs|] == dirs;
    remaining := [];
  }

  /** The message the clear button shows (app.py:495-498). */
  datatype Notice = Cleared(count: nat) | NothingToClear

  /**
   * The "clear temporary files" button (app.py:483-498). The count is the
   * number of tracked directories before the click, whether or not their
   * removal succeeded, because `rmtree` with `ignore_errors=True` never
   * raises; the list is emptied afterwards.
   */
  method ClearButton(fails: string -> bool, dirs: DirList) returns (count: nat, remaining: DirList, notice: Notice)
    ensures count == |dirs|
    ensures remaining == []
    ensures notice == NothingToClear <==> dirs == []
    ensures notice.Cleared? ==> notice.count == |dirs|
    ensures |Deleted(fails, dirs)| <= count
    ensures |Deleted(fails, dirs)| == count <==> forall d :: d in dirs ==> !fails(d)
  {
    count := 0;
    for i := 0 to |dirs|
      invariant count == i
    {
      var outcome := RemoveTree(true, fails(dirs[i]));
      if outcome == Returned {
        count := count + 1;
      }
    }
    remaining := [];
    notice := if count > 0 then Cleared(count) else NothingToClear;
    DeletedAllIff(fails, dirs);
  }

  /** Every tracked directory is really deleted exactly when none of the removals fails. */
  lemma {:induction false} DeletedAllIff(fails: string -> bool, dirs: DirList)
    ensures |Deleted(fails, dirs)| == |dirs| <==> forall d :: d in dirs ==> !fails(d)
  {
    if dirs != [] {
      var init := dirs[..|dirs| - 1];
      var last := dirs[|dirs| - 1];
      DeletedAllIff(fails, init);
      assert dirs == init + [last];
      if fails(last) {
        assert |Deleted(fails, dirs)| < |dirs|;
      }
    }
  }
}

=== FILE: url_escape.dfy ===
/**
 * The user path turned into the body of a `file:///` URL (app.py:386):
 * `path.replace("\\", "/").replace(":", "%3A")`.
 */
module UrlEscape {

  /** Python's `s.replace(c, rep)` for a one-character pattern. */
  function ReplaceChar(s: string, c: char, rep: string): (r: string)
    ensures c !in rep ==> c !in r
    ensures forall x :: x in r ==> x in s || x in rep
  {
    if s == [] then []
    else (if s[0] == c then rep else [s[0]]) + ReplaceChar(s[1..], c, rep)
  }

  function UrlPath(path: string): (url: string)
    ensures '\\' !in url && ':' !in url
  {
    ReplaceChar(ReplaceChar(path, '\\', "/"), ':', "%3A")
  }

  /** What one character of the path becomes. */
  function EscapeChar(c: char): string {
    if c == '\\' then "/" else if c == ':' then "%3A" else [c]
  }

  /** The escaping as a single left-to-right pass, one character at a time. */
  function EscapeEach(path: string): string {
    if path == [] then [] else EscapeChar(path[0]) + EscapeEach(path[1..])
  }

  function Count(s: string, c: char): nat {
    if s == [] then 0 else (if s[0] == c then 1 else 0) + Count(s[1..], c)
  }

  lemma {:induction false} ReplaceCharAppend(a: string, b: string, c: char, rep: string)
    ensures ReplaceChar(a + b, c, rep) == ReplaceChar(a, c, rep) + ReplaceChar(b, c, rep)
  {
    if a == [] {
      assert a + b == b;
    } else {
      assert (a + b)[1..] == a[1..] + b;
      ReplaceCharAppend(a[1..], b, c, rep);
    }
  }

  /**
   * The two chained replacements act character by character: a backslash
   * becomes `/`, a colon becomes `%3A`, every other character stays.
   */
  lemma {:induction false} UrlPathIsPerCharacter(path: string)
    ensures UrlPath(path) == EscapeEach(path)
  {
    if path != [] {
      UrlPathIsPerCharacter(path[1..]);
      var head := if path[0] == '\\' then "/" else [path[0]];
      ReplaceCharAppend(head, ReplaceChar(path[1..], '\\', "/"), ':', "%3A");
    }
  }

  /**
   * The escaped path has no backslash and no colon, is two characters
   * longer per colon, and escaping it again changes nothing.
   */
  lemma {:induction false} UrlPathProperties(path: string)
    ensures '\\' !in UrlPath(path) && ':' !in UrlPath(path)
    ensures |UrlPath(path)| == |path| + 2 * Count(path, ':')
    ensures UrlPath(UrlPath(path)) == UrlPath(path)
  {
    UrlPathIsPerCharacter(path);
    EscapeEachShape(path);
    UrlPathIsPerCharacter(UrlPath(path));
    EscapeEachFixes(UrlPath(path));
  }

  lemma {:induction false} EscapeEachShape(path: string)
    ensures '\\' !in EscapeEach(path) && ':' !in EscapeEach(path)
    ensures |EscapeEach(path)| == |path| + 2 * Count(path, ':')
  {
    if path != [] {
      EscapeEachShape(path[1..]);
    }
  }

  /** A path with neither a backslash nor a colon is its own escape. */
  lemma {:induction false} EscapeEachFixes(path: string)
    requires '\\' !in path && ':' !in path
    ensures EscapeEach(path) == path
  {
    if path != [] {
      assert path[0] in path;
      assert forall x :: x in path[1..] ==> x in path;
      EscapeEachFixes(path[1..]);
    }
  }
}

=== FILE: whitespace_split.dfy ===
/**
 * Python's `str.split()` with no separator: the string is cut at runs of
 * white space, and leading, trailing and repeated white space yields no
 * empty pieces (used on the export option at app.py:316).
 */
module WhitespaceSplit {
  import opened CharClasses

  predicate NoSpace(t: Tables, s: string) {
    forall i :: 0 <= i < |s| ==> !t.isSpace(s[i])
  }

  /** Length of the white-space-free prefix of `s`. */
  function TokenLength(t: Tables, s: string): (n: nat)
    ensures n <= |s|
    ensures NoSpace(t, s[..n])
    ensures n < |s| ==> t.isSpace(s[n])
  {
    if s == [] || t.isSpace(s[0]) then 0 else 1 + TokenLength(t, s[1..])
  }

  function Split(t: Tables, s: string): (words: seq<string>)
    decreases |s|
  {
    if s == [] then []
    else if t.isSpace(s[0]) then Split(t, s[1..])
    else
      var n := TokenLength(t, s);
      [s[..n]] + Split(t, s[n..])
  }

  /** `s` with every white-space character removed. */
  function Squeeze(t: Tables, s: string): string {
    if s == [] then [] else (if t.isSpace(s[0]) then [] else [s[0]]) + Squeeze(t, s[1..])
  }

  function Concat(words: seq<string>): string {
    if words == [] then [] else words[0] + Concat(words[1..])
  }

  /**
   * The pieces are non-empty and free of white space, and together they are
   * exactly the non-space characters of `s`, in order.
   */
  lemma {:induction false} SplitPieces(t: Tables, s: string)
    ensures forall i :: 0 <= i < |Split(t, s)| ==> Split(t, s)[i] != [] && NoSpace(t, Split(t, s)[i])
    ensures Concat(Split(t, s)) == Squeeze(t, s)
    decreases |s|
  {
    if s == [] {
    } else if t.isSpace(s[0]) {
      SplitPieces(t, s[1..]);
    } else {
      var n := TokenLength(t, s);
      SplitPieces(t, s[n..]);
      SqueezeAppend(t, s[..n], s[n..]);
      assert s[..n] + s[n..] == s;
      SqueezeNoSpace(t, s[..n]);
      var words := Split(t, s);
      assert words == [s[..n]] + Split(t, s[n..]);
      assert words[1..] == Split(t, s[n..]);
    }
  }

  lemma {:induction false} SqueezeAppend(t: Tables, a: string, b: string)
    ensures Squeeze(t, a + b) == Squeeze(t, a) + Squeeze(t, b)
  {
    if a == [] {
      assert a + b == b;
    } else {
      assert (a + b)[1..] == a[1..] + b;
      SqueezeAppend(t, a[1..], b);
    }
  }

  lemma {:induction false} SqueezeNoSpace(t: Tables, s: string)
    requires NoSpace(t, s)
    ensures Squeeze(t, s) == s
  {
    if s != [] {
      SqueezeNoSpace(t, s[1..]);
    }
  }

  /** A white-space character between two parts separates their pieces. */
  lemma {:induction false} SplitAtSpace(t: Tables, a: string, c: char, b: string)
    requires t.isSpace(c)
    ensures Split(t, a + [c] + b) == Split(t, a) + Split(t, b)
    decreases |a|
  {
    var s := a + [c] + b;
    if a == [] {
      assert s[1..] == b;
    } else if t.isSpace(a[0]) {
      assert s[1..] == a[1..] + [c] + b;
      SplitAtSpace(t, a[1..], c, b);
      assert Split(t, s) == Split(t, s[1..]);
    } else {
      var n := TokenLength(t, a);
      assert s == a + ([c] + b);
      WordBeforeSpace(t, a, [c] + b);
      assert a[n..] + ([c] + b) == a[n..] + [c] + b;
      SplitAtSpace(t, a[n..], c, b);
    }
  }

  /** The first word of `a` is also the first piece of `a` followed by white space. */
  lemma WordBeforeSpace(t: Tables, a: string, rest: string)
    requires a != [] && !t.isSpace(a[0])
    requires rest != [] && t.isSpace(rest[0])
    ensures Split(t, a + rest) == [a[..TokenLength(t, a)]] + Split(t, a[TokenLength(t, a)..] + rest)
    ensures Split(t, a) == [a[..TokenLength(t, a)]] + Split(t, a[TokenLength(t, a)..])
  {
    var n := TokenLength(t, a);
    TokenLengthOfPrefix(t, a, rest);
    WordFirst(t, a + rest, n);
    PrefixSlices(a, rest, n);
  }

  /** A string starting with a word splits into that word and the pieces of the remainder. */
  lemma WordFirst(t: Tables, s: string, n: nat)
    requires s != [] && !t.isSpace(s[0]) && n == TokenLength(t, s)
    ensures Split(t, s) == [s[..n]] + Split(t, s[n..])
  {
  }

  lemma PrefixSlices(a: string, rest: string, n: nat)
    requires n <= |a|
    ensures (a + rest)[..n] == a[..n] && (a + rest)[n..] == a[n..] + rest
  {
    assert forall k :: 0 <= k < n ==> (a + rest)[k] == a[k];
  }

  /** A token that ends inside `a`, or at a following space, ends at the same place in `a + rest`. */
  lemma {:induction false} TokenLengthOfPrefix(t: Tables, a: string, rest: string)
    requires rest != [] && t.isSpace(rest[0])
    ensures TokenLength(t, a + rest) == TokenLength(t, a)
  {
    if a != [] && !t.isSpace(a[0]) {
      assert (a + rest)[1..] == a[1..] + rest;
      TokenLengthOfPrefix(t, a[1..], rest);
    }
  }

  /** A non-empty word without white space splits into itself. */
  lemma {:induction false} SplitWord(t: Tables, w: string)
    requires w != [] && NoSpace(t, w)
    ensures Split(t, w) == [w]
  {
    TokenLengthAll(t, w);
    assert w[..|w|] == w && w[|w|..] == [];
  }

  lemma {:induction false} TokenLengthAll(t: Tables, w: string)
    requires NoSpace(t, w)
    ensures TokenLength(t, w) == |w|
  {
    if w != [] {
      TokenLengthAll(t, w[1..]);
    }
  }

  /** A string with some non-space character yields at least one piece. */
  lemma {:induction false} SplitNonEmpty(t: Tables, s: string, k: nat)
    requires k < |s| && !t.isSpace(s[k])
    ensures |Split(t, s)| >= 1
    decreases |s|
  {
    if t.isSpace(s[0]) {
      SplitNonEmpty(t, s[1..], k - 1);
    }
  }

  /** White space with other characters on both sides of it makes at least two pieces. */
  lemma {:induction false} SplitTwoPieces(t: Tables, s: string, i: nat, k: nat, j: nat)
    requires i < k < j < |s|
    requires !t.isSpace(s[i]) && t.isSpace(s[k]) && !t.isSpace(s[j])
    ensures |Split(t, s)| >= 2
  {
    var head := s[..k];
    var tail := s[k + 1..];
    assert s == head + [s[k]] + tail;
    SplitAtSpace(t, head, s[k], tail);
    assert head[i] == s[i];
    SplitNonEmpty(t, head, i);
    assert tail[j - k - 1] == s[j];
    SplitNonEmpty(t, tail, j - k - 1);
  }
}

=== FILE: wrappers.dfy ===
/** Option and Result, the failure-carrying values used across the model. */
module Wrappers {

  datatype Option<+T> = None | Some(value: T)

  datatype Result<+R, +E> = Success(value: R) | Failure(error: E)
}
